=== FILE: README.md ===
# ClickOps-Or-Terraform in Dafny

ClickOps-Or-Terraform is a command-line tool that looks at an Azure
subscription and guesses which of its resources were created by hand in the
Azure portal ("ClickOps") rather than by an infrastructure-as-code tool. It
lists the subscriptions, lets the user pick one or all of them, and fetches
each subscription's resources. It then runs a fixed heuristic on every
resource and prints and counts the flagged ones, optionally appending them
to a CSV report. At the end it prints a summary: how many resources were
analysed, how many were flagged, and what percentage that is.

This project models that core as pure Dafny functions and proves properties
of them.

- `Classifier` is the heuristic `is_portal_created`. Three checks look for
  the marker "azurerm", in any letter case, in the identity, `managedBy` and
  `createdBy` fields. Two checks form an if/else pair over the tags: "no
  tags", or else "no automation indicator in the lower-cased tag
  dictionary". The last check fires for a "Succeeded" provisioning state
  when that dictionary holds no indicator.
  - The automation-tag test lower-cases the tags into a dictionary. Like
    Python's dict comprehension, that dictionary merges keys that differ
    only in case. `TagDict` models that dictionary.
  - Each rule contributes a fixed reason string, in rule order.
- `Selection` is the subscription menu `select_subscription`. It also holds
  the display-name lookup that `main` performs with `next(...)`.
- `Report` is `export_to_csv`. The header is written only to an empty file.
  Each flagged resource becomes one seven-field row. The tags column is
  `key=value` pairs joined by "; ", or "No tags". The reasons column is the
  reason strings joined by "; ".
- `Analysis` is the loop of `main`. For each selected subscription it
  filters the flagged resources, adds to the totals and appends the CSV
  rows. It ends with the summary percentage.
- `Text`, `Wrappers` and `Resources` provide the string helpers, `Option`,
  and the records read from the CLI.

The cloud CLI is not modelled. Listing a subscription's resources is a
function parameter `fetch`. The user's answers to the menu are a finite
script of already-parsed integers, where `None` stands for text that
`int()` rejects.

## Model

| member | source | states |
|---|---|---|
| Classifier.Classify | ClickOps-Or-Terraform.py:129-182 | a resource is flagged exactly when at least one reason is given; a reason is given exactly when its rule fires; reasons come in rule order, without repeats, and there are at most five |
| Classifier.Decide | ClickOps-Or-Terraform.py:134-182 | the reasons produced are exactly those of the rules that fire on the observed facts, in rule order, at most five |
| Classifier.Fired | ClickOps-Or-Terraform.py:141-180 | running the rules in sequence keeps exactly the reasons whose rule fires, and keeps rule order |
| Classifier.AtMostFiveReasons | ClickOps-Or-Terraform.py:172-175 | the "no tags" and "lacks automation tags" rules are exclusive, so at most five of the six reasons can arise |
| Classifier.MarkerReasons | ClickOps-Or-Terraform.py:137-148 | each marker reason appears exactly when its field (identity, managedBy, createdBy) contains "azurerm" after lower-casing, whatever the tags |
| Classifier.TagReasons | ClickOps-Or-Terraform.py:165-180 | "no tags" exactly for untagged resources; "lacks automation-related tags" exactly for tagged ones whose lower-cased tag dictionary (`HasAutomationTags`) holds no indicator; "provisioned without automation tags" exactly for a succeeded state when that dictionary holds no indicator |
| Classifier.UntaggedIsFlagged | ClickOps-Or-Terraform.py:172-173 | an untagged resource is always flagged with "no tags" and never with "lacks automation-related tags" |
| Classifier.IndicatorSuppressesTagRules | ClickOps-Or-Terraform.py:166-182 | when the lower-cased tag dictionary holds an indicator (`HasAutomationTags`), neither tag-based reason is given and the resource is flagged exactly when a metadata field carries the marker; because case-colliding keys merge, a single matching tag is not always enough (see CaseCollidingKeysMerge) |
| Classifier.MatchingTagSuppressesTagRules | ClickOps-Or-Terraform.py:165-182 | when no two tag keys collide after lower-casing, one tag matching an indicator in its key or value suffices: neither tag-based reason is given |
| Classifier.MixedCaseMarker | ClickOps-Or-Terraform.py:144-145 | a marker written in any letter case, such as "AzureRM", is detected |
| Classifier.HasAutomationTags | ClickOps-Or-Terraform.py:165-170 | an automation indicator can only be found on a resource with tags; IndicatorCheckPerTag and CaseCollidingKeysMerge relate it to checking each tag |
| Classifier.MentionsAnyIff | ClickOps-Or-Terraform.py:166-170 | the recursive indicator test holds exactly when some indicator is a substring |
| Classifier.IndicatorCheckPerTag | ClickOps-Or-Terraform.py:165-170 | when the lower-cased keys are distinct, the dictionary-based indicator check equals asking whether any single tag, lower-cased, matches an indicator in its key or value |
| Classifier.CaseCollidingKeysMerge | ClickOps-Or-Terraform.py:165-170 | keys that differ only in case merge and the later value wins: tags Tool=Bicep and tool=me lose the "bicep" indicator even though the first tag alone matches |
| Classifier.TerraformTagNotFlagged | ClickOps-Or-Terraform.py:152-180 | a resource with a single tag keyed "terraform" in any case and no marker is not flagged |
| Classifier.UntaggedSucceeded | ClickOps-Or-Terraform.py:172-182 | an untagged, succeeded resource without markers is flagged with exactly "no tags" then "provisioned without automation tags" |
| Classifier.ClassifyIgnoresCase | ClickOps-Or-Terraform.py:141-178 | two resources that agree up to letter case in every inspected field get the same verdict |
| Classifier.OrderedUnique | ClickOps-Or-Terraform.py:134-182 | two rule-ordered reason lists with the same members are equal, so the membership and order clauses of the verdict determine its reasons completely |
| Classifier.FiredShorter | ClickOps-Or-Terraform.py:141-180 | a rule that does not fire leaves fewer reasons than rules |
| TagDict.PutAssigns | ClickOps-Or-Terraform.py:165 | dictionary assignment stores the value under its key, leaves other keys unchanged, appends a new key last, and keeps keys distinct |
| TagDict.Put | ClickOps-Or-Terraform.py:165 | after assignment the pair is present, and the dictionary grows by at most one entry |
| TagDict.BuildDict | ClickOps-Or-Terraform.py:165 | the comprehension's dictionary is no longer than its pairs and always holds the last pair; BuildDictIsDict states its contents |
| TagDict.BuildDictIsDict | ClickOps-Or-Terraform.py:165 | the comprehension's dictionary has distinct keys, exactly the keys of the pairs, and each key holds the value of its last pair |
| TagDict.BuildDictDistinct | ClickOps-Or-Terraform.py:165 | pairs whose keys are already distinct pass through the comprehension unchanged and in order |
| TagDict.LookupAbsent | ClickOps-Or-Terraform.py:165 | a key is missing from the dictionary exactly when no pair carries it |
| Selection.Choose | ClickOps-Or-Terraform.py:100-104 | an answer is accepted exactly when it is a number from 1 to n+1; n+1 selects every id in listing order; k in 1..n selects only the k-th id |
| Selection.ChooseKnown | ClickOps-Or-Terraform.py:101-104 | every selected id belongs to a listed subscription, and only "all" selects more than one |
| Selection.EachSubscriptionSelectable | ClickOps-Or-Terraform.py:103-104 | every listed subscription can be chosen alone by its position counted from 1 |
| Selection.EmptyListSelectsNothing | ClickOps-Or-Terraform.py:96-104 | with no subscriptions, only answer 1 ("all") is accepted, and it selects nothing |
| Selection.FirstAcceptedIsFirst | ClickOps-Or-Terraform.py:98-107 | the loop's result is absent exactly when every answer is refused; otherwise it is the selection of the earliest accepted answer |
| Selection.Prompt | ClickOps-Or-Terraform.py:98-107 | the retry loop returns the selection of the first accepted answer after refusing every earlier one, and consumes the whole script when none is accepted |
| Selection.SubscriptionName | ClickOps-Or-Terraform.py:275 | for a listed id, the name returned belongs to a subscription with that id; SubscriptionNameFirst shows it is the first such |
| Selection.SubscriptionNameFirst | ClickOps-Or-Terraform.py:275 | the name found for an id is that of the first listed subscription with that id |
| Report.TagText | ClickOps-Or-Terraform.py:229 | a tag's text is its key, then '=', then its value |
| Report.TagsField | ClickOps-Or-Terraform.py:229 | a non-empty tags column begins with the first tag's key=value text; the placeholder and the round trip are TagsFieldPlaceholder and TagsFieldSplits |
| Report.TagsFieldPlaceholder | ClickOps-Or-Terraform.py:229 | the tags column is "No tags" exactly when the resource has no tags |
| Report.TagsFieldSplits | ClickOps-Or-Terraform.py:229 | when no key or value contains ';', splitting the tags column at "; " gives back one key=value text per tag, in order |
| Report.MessageDistinct | ClickOps-Or-Terraform.py:142-180 | the six reason strings are pairwise different |
| Report.ReasonsField | ClickOps-Or-Terraform.py:230 | a non-empty indicators column begins with the first reason's string; the round trip is ReasonsFieldSplits |
| Report.ReasonsFieldSplits | ClickOps-Or-Terraform.py:230 | splitting the indicators column of a non-empty reason list at "; " gives back the reason strings in order (an empty list gives "", which splits to one empty item) |
| Report.ReasonsFieldInjective | ClickOps-Or-Terraform.py:230 | two non-empty reason lists give the same indicators column only when they are equal, so the column loses nothing |
| Report.ResourceRow | ClickOps-Or-Terraform.py:232-240 | a resource row is as wide as the header; its field values are stated by Export |
| Report.RowIsNotHeader | ClickOps-Or-Terraform.py:214-239 | a row for a flagged resource is never equal to the header |
| Report.Export | ClickOps-Or-Terraform.py:206-240 | the old rows are kept; the header is added exactly when the file was empty; then one seven-field row per flagged resource, in order, holding the subscription name, the resource's name, type and group, the tags column, the created time (empty when absent) and the indicators column |
| Report.ExportNoSecondHeader | ClickOps-Or-Terraform.py:214-224 | appending to a non-empty file never writes another header |
| Analysis.Kept | ClickOps-Or-Terraform.py:281-285 | the filter's own contract bounds only its length by the listing's; what it keeps is stated by KeptSound, KeptComplete and KeptAppend |
| Analysis.PortalCreated | ClickOps-Or-Terraform.py:281-285 | the filter with `is_portal_created`, never longer than the listing; its contents are stated by PortalCreatedExact |
| Analysis.KeptAppend | ClickOps-Or-Terraform.py:281-285 | filtering a concatenated listing is the concatenation of the filtered parts, so flagged resources keep their relative order |
| Analysis.KeptSound | ClickOps-Or-Terraform.py:281-285 | every kept entry is a listed resource that the classifier flags, with exactly the reasons it gives |
| Analysis.KeptComplete | ClickOps-Or-Terraform.py:281-285 | every listed resource that the classifier flags is kept with its reasons |
| Analysis.PortalCreatedExact | ClickOps-Or-Terraform.py:281-285 | the kept entries of a listing are exactly its flagged resources, each with the reasons `is_portal_created` gives |
| Analysis.FlaggedHaveReasons | ClickOps-Or-Terraform.py:283-285 | every kept resource carries at least one reason |
| Analysis.CollectFlagged | ClickOps-Or-Terraform.py:281-285 | the collecting loop builds exactly the filtered listing |
| Analysis.AnalyzeSubscription | ClickOps-Or-Terraform.py:278-300 | one subscription adds its listing size and its flagged count to the totals; the file is unchanged unless an output is requested and something was flagged, and then receives exactly the export of the flagged resources under the subscription's name |
| Analysis.Run | ClickOps-Or-Terraform.py:274-301 | over the whole run the flagged count never exceeds the resource count |
| Analysis.RunStep | ClickOps-Or-Terraform.py:279-287 | each further subscription adds exactly its listing size and its flagged count to the totals |
| Analysis.TallyAppend | ClickOps-Or-Terraform.py:274-287 | the totals over a concatenation of selections add up |
| Analysis.RunTotals | ClickOps-Or-Terraform.py:263-287 | the run's totals equal the plain sum, over the selected subscriptions, of listing sizes and flagged counts, whether or not a CSV output is requested |
| Analysis.ExportKeepsShape | ClickOps-Or-Terraform.py:292-300 | appending a non-empty batch to a well-shaped report keeps it well shaped with the count increased |
| Analysis.RunRows | ClickOps-Or-Terraform.py:274-300 | the reference list of resource rows, subscription by subscription in selection order; it has one row per flagged resource of the run |
| Analysis.ExportExtendsFile | ClickOps-Or-Terraform.py:214-240 | exporting a non-empty batch to the file of earlier rows gives the file of the earlier rows followed by the batch's rows |
| Analysis.RunCsv | ClickOps-Or-Terraform.py:267-300 | without an output nothing is written; with one, the file is exactly the header followed by every subscription's rows, in selection order, each under its own subscription's name, or empty when nothing was flagged |
| Analysis.RunCsvShape | ClickOps-Or-Terraform.py:267-300 | with an output, the file is empty while nothing is flagged; once something was flagged it holds a single header and one seven-field row per flagged resource counted in the totals, none of them equal to the header |
| Analysis.Percentage | ClickOps-Or-Terraform.py:308-309 | the percentage exists exactly when resources were analysed; it then equals 100 times the flagged share, and lies between 0 and 100 |
| Analysis.SelectionKnown | ClickOps-Or-Terraform.py:259-275 | every id the prompt settles on names a listed subscription, so the name lookup of the loop always succeeds |
| Analysis.Analyze | ClickOps-Or-Terraform.py:259-309 | the analysis yields no result exactly when every menu answer is refused; otherwise its totals are the plain sum over exactly the subscriptions the first accepted answer selects, and its file is empty without an output and otherwise the header followed by those subscriptions' rows in selection order |
| Text.ToLower | ClickOps-Or-Terraform.py:141-178 | lower-casing keeps the length, maps each character, and leaves no capital letter |
| Text.Contains | ClickOps-Or-Terraform.py:141-170 | Python's substring test `w in s`: a string only contains strings no longer than itself; ContainsIffOccurs gives its positional meaning |
| Text.ContainsIffOccurs | ClickOps-Or-Terraform.py:141-170 | the substring test holds exactly when the word occurs at some position of the string |
| Text.ContainsLower | ClickOps-Or-Terraform.py:141-147 | a substring stays a substring after both sides are lower-cased |
| Text.SplitJoin | ClickOps-Or-Terraform.py:229-230 | splitting a non-empty "; "-joined list whose items hold no ';' gives back the list (an empty list joins to "", which splits to one empty item) |

## Left out

- The Azure CLI calls (`check_az_cli`, `ensure_az_login`,
  `get_subscriptions`, `fetch_resource_details`), their failures and the
  `sys.exit` they trigger. Each is I/O. The subscription list is an input,
  and fetching a listing is the function parameter `fetch`.
- Argument parsing (`parse_args`). It is I/O. Whether an output file was
  named is the boolean `exporting`.
- Reading the menu answers and parsing them with `int()`. This is I/O, so
  the answers are a script of `Option<int>`.
- Selection.Prompt: when the script runs out before an answer is accepted,
  the model returns `None`. The source would block on `input()` or raise
  `EOFError`.
- Opening, truncating and appending to the CSV file. The file is a
  sequence of rows that starts empty, as after the truncation at line 269.
  A failure to create or clear the file prints an error and exits
  (lines 270-272). A failure while exporting is printed and ignored
  (lines 243-244). Neither failure is modelled.
- CSV quoting and encoding: a row is the list of fields the writer
  receives.
- Report.CreatedTimeField: the listing query projects `createdTime`, so the
  key is always present. A missing time arrives as JSON null, which the CSV
  writer renders as an empty field. The "Unknown" default at line 238 is
  therefore never used, and the model writes "".
- All printing: the menu, progress messages, `format_resource_output`, and
  the summary lines. Only the values they display are
  modelled.
- Analysis.Percentage: the value is an exact real. The source's float
  division and `.1f` rounding are not modelled.
- The identity object is modelled as its textual rendering. `None` means
  absent or not an object. Python's `str(dict)` formatting is not
  modelled.
- Text.ToLower: lower-cases ASCII letters only. Python's full Unicode
  `str.lower` is not modelled.
- A tag value is taken as a string. The source's `str(v)` conversion of
  non-string values is not modelled.
- A `provisioningState` of JSON null makes `.lower()` raise in the source.
  The model takes the state as a string, so that crash is not modelled.
- Classifier.AutomationIndicators is a sequence. The source uses a set,
  but only asks whether any indicator occurs, so order has no effect.
- `Analysis.Kept` and `Analysis.CollectFlagged` take the classifier as a
  parameter, and `main` passes `Classify`. Their lemmas therefore hold for
  any classifier.

=== FILE: analysis.dfy ===
/** The analysis loop of `main`: for each selected subscription, list its
    resources, keep the flagged ones, add to the run totals and, when a CSV
    output is requested, append the flagged rows to the file. Listing the
    resources of a subscription is the function `fetch`. */
module Analysis {
  import opened Wrappers
  import opened Resources
  import opened Classifier
  import opened Selection
  import opened Report

  /** The entry kept for one resource given its verdict: the resource and
      its reasons when it is flagged, nothing otherwise. */
  function Keep(r: Resource, v: Verdict): seq<Flagged> {
    if v.portalCreated then [Flagged(r, v.reasons)] else []
  }

  /** The resources of a listing that `classify` flags, with their reasons,
      in listing order. The lemmas below hold for any classifier. */
  function Kept(resources: seq<Resource>, classify: Resource -> Verdict): (flagged: seq<Flagged>)
    ensures |flagged| <= |resources|
    decreases |resources|
  {
    if |resources| == 0 then []
    else
      var n := |resources| - 1;
      Kept(resources[..n], classify) + Keep(resources[n], classify(resources[n]))
  }

  /** The flagged resources of one listing with their reasons, in listing
      order. */
  function PortalCreated(resources: seq<Resource>): (flagged: seq<Flagged>)
    ensures |flagged| <= |resources|
  {
    Kept(resources, Classify)
  }

  /** Filtering distributes over concatenation, so flagged resources keep
      their relative order. */
  lemma {:induction false} KeptAppend(a: seq<Resource>, b: seq<Resource>, classify: Resource -> Verdict)
    ensures Kept(a + b, classify) == Kept(a, classify) + Kept(b, classify)
    decreases |b|
  {
    if |b| == 0 {
      assert a + b == a;
    } else {
      var n := |b| - 1;
      var last := Keep(b[n], classify(b[n]));
      assert (a + b)[..|a + b| - 1] == a + b[..n];
      assert (a + b)[|a + b| - 1] == b[n];
      assert Kept(a + b, classify) == Kept(a + b[..n], classify) + last;
      KeptAppend(a, b[..n], classify);
      assert Kept(b, classify) == Kept(b[..n], classify) + last;
    }
  }

  /** Every kept entry is a listed resource that the classifier flags, with
      exactly the reasons it gives. */
  lemma {:induction false} KeptSound(resources: seq<Resource>, classify: Resource -> Verdict)
    ensures forall f :: f in Kept(resources, classify) ==>
              f.resource in resources && classify(f.resource) == Verdict(true, f.reasons)
    decreases |resources|
  {
    if |resources| > 0 {
      var n := |resources| - 1;
      KeptSound(resources[..n], classify);
      forall f | f in Kept(resources, classify)
        ensures f.resource in resources && classify(f.resource) == Verdict(true, f.reasons)
      {
        if f in Kept(resources[..n], classify) {
          assert f.resource in resources[..n];
        } else {
          assert f in Keep(resources[n], classify(resources[n]));
        }
      }
    }
  }

  /** Every listed resource that the classifier flags is kept. */
  lemma {:induction false} KeptComplete(resources: seq<Resource>, classify: Resource -> Verdict)
    ensures forall r :: r in resources && classify(r).portalCreated ==>
              Flagged(r, classify(r).reasons) in Kept(resources, classify)
    decreases |resources|
  {
    if |resources| > 0 {
      var n := |resources| - 1;
      KeptComplete(resources[..n], classify);
      assert resources == resources[..n] + [resources[n]];
      forall r | r in resources && classify(r).portalCreated
        ensures Flagged(r, classify(r).reasons) in Kept(resources, classify)
      {
        if r != resources[n] {
          assert r in resources[..n];
        }
      }
    }
  }

  /** The kept entries are exactly the flagged resources with the reasons
      `is_portal_created` gives them. */
  lemma PortalCreatedExact(resources: seq<Resource>)
    ensures forall f :: f in PortalCreated(resources) ==>
              f.resource in resources && Classify(f.resource) == Verdict(true, f.reasons)
    ensures forall r :: r in resources && Classify(r).portalCreated ==>
              Flagged(r, Classify(r).reasons) in PortalCreated(resources)
  {
    KeptSound(resources, Classify);
    KeptComplete(resources, Classify);
  }

  /** Every kept entry carries at least one reason. */
  lemma FlaggedHaveReasons(resources: seq<Resource>)
    ensures forall k :: 0 <= k < |PortalCreated(resources)| ==> |PortalCreated(resources)[k].reasons| > 0
  {
    var flagged := PortalCreated(resources);
    KeptSound(resources, Classify);
    forall k | 0 <= k < |flagged| ensures |flagged[k].reasons| > 0 {
      assert flagged[k] in flagged;
    }
  }

  /** The loop of `main` that collects the flagged resources of one
      subscription, calling `classify` on each resource in turn; `main`
      calls it with `Classify`, giving `PortalCreated`. */
  method CollectFlagged(resources: seq<Resource>, classify: Resource -> Verdict) returns (flagged: seq<Flagged>)
    ensures flagged == Kept(resources, classify)
  {
    flagged := [];
    var i := 0;
    while i < |resources|
      invariant i <= |resources|
      invariant flagged == Kept(resources[..i], classify)
    {
      var v := classify(resources[i]);
      if v.portalCreated {
        flagged := flagged + [Flagged(resources[i], v.reasons)];
      }
      assert resources[..i + 1][..i] == resources[..i];
      i := i + 1;
    }
    assert resources[..i] == resources;
  }

  /** The running counts of `main`. */
  datatype Totals = Totals(resources: nat, portalCreated: nat)

  /** The counts and the CSV file as they stand between subscriptions. */
  datatype RunState = RunState(totals: Totals, csv: seq<Row>)

  /** The state before the first subscription: zero counts and, when an
      output is requested, a file just truncated to empty. */
  const Start: RunState := RunState(Totals(0, 0), [])

  /** One pass of the loop body for the subscription named `name` whose
      listing is `resources`. The file only changes when an output is
      requested and something was flagged. */
  function AnalyzeSubscription(st: RunState, name: string, resources: seq<Resource>, exporting: bool): (next: RunState)
    ensures next.totals.resources == st.totals.resources + |resources|
    ensures next.totals.portalCreated == st.totals.portalCreated + |PortalCreated(resources)|
    ensures !exporting || |PortalCreated(resources)| == 0 ==> next.csv == st.csv
    ensures exporting && |PortalCreated(resources)| > 0 ==>
              next.csv == Export(st.csv, PortalCreated(resources), name)
  {
    var flagged := PortalCreated(resources);
    var totals := Totals(st.totals.resources + |resources|, st.totals.portalCreated + |flagged|);
    var csv := if exporting && |flagged| > 0 then Export(st.csv, flagged, name) else st.csv;
    RunState(totals, csv)
  }

  /** All selected ids name listed subscriptions. */
  predicate AllKnown(subs: seq<Subscription>, selected: seq<string>) {
    forall k :: 0 <= k < |selected| ==> Known(subs, selected[k])
  }

  /** The loop of `main` over the selected subscriptions, in order. */
  function Run(subs: seq<Subscription>, selected: seq<string>, fetch: string -> seq<Resource>, exporting: bool): (st: RunState)
    requires AllKnown(subs, selected)
    ensures st.totals.portalCreated <= st.totals.resources
    decreases |selected|
  {
    if |selected| == 0 then Start
    else
      var n := |selected| - 1;
      var id := selected[n];
      var prev := Run(subs, selected[..n], fetch, exporting);
      AnalyzeSubscription(prev, SubscriptionName(subs, id), fetch(id), exporting)
  }

  /** One more subscription adds its listing and its flagged resources to
      the counts. */
  lemma RunStep(subs: seq<Subscription>, selected: seq<string>, fetch: string -> seq<Resource>, exporting: bool)
    requires AllKnown(subs, selected) && |selected| > 0
    ensures var n := |selected| - 1;
            AllKnown(subs, selected[..n]) &&
            var prev := Run(subs, selected[..n], fetch, exporting).totals;
            Run(subs, selected, fetch, exporting).totals ==
              Totals(prev.resources + |fetch(selected[n])|, prev.portalCreated + |PortalCreated(fetch(selected[n]))|)
  {
    var n := |selected| - 1;
    assert AllKnown(subs, selected[..n]);
  }

  /** The counts of a run as a plain sum over the selected ids: each
      subscription contributes its listing and its flagged resources. */
  function Tally(selected: seq<string>, fetch: string -> seq<Resource>): (t: Totals)
    decreases |selected|
  {
    if |selected| == 0 then Totals(0, 0)
    else
      var n := |selected| - 1;
      var rest := Tally(selected[..n], fetch);
      var listing := fetch(selected[n]);
      Totals(rest.resources + |listing|, rest.portalCreated + |PortalCreated(listing)|)
  }

  /** Sums over a concatenation add up, so the order in which the
      subscriptions are analysed does not change the counts. */
  lemma {:induction false} TallyAppend(a: seq<string>, b: seq<string>, fetch: string -> seq<Resource>)
    ensures Tally(a + b, fetch).resources == Tally(a, fetch).resources + Tally(b, fetch).resources
    ensures Tally(a + b, fetch).portalCreated == Tally(a, fetch).portalCreated + Tally(b, fetch).portalCreated
    decreases |b|
  {
    if |b| == 0 {
      assert a + b == a;
    } else {
      var n := |b| - 1;
      assert (a + b)[..|a + b| - 1] == a + b[..n];
      assert (a + b)[|a + b| - 1] == b[n];
      TallyAppend(a, b[..n], fetch);
    }
  }

  /** The run's counts are the plain sum over the selected subscriptions,
      whether or not a CSV output is requested. */
  lemma {:induction false} RunTotals(subs: seq<Subscription>, selected: seq<string>, fetch: string -> seq<Resource>, exporting: bool)
    requires AllKnown(subs, selected)
    ensures Run(subs, selected, fetch, exporting).totals == Tally(selected, fetch)
    decreases |selected|
  {
    if |selected| > 0 {
      var n := |selected| - 1;
      assert AllKnown(subs, selected[..n]);
      RunTotals(subs, selected[..n], fetch, exporting);
      RunStep(subs, selected, fetch, exporting);
    }
  }

  /** The shape of the CSV file after flagging `n` resources: empty while
      nothing is flagged, otherwise one header followed by exactly `n`
      seven-field resource rows, none of which reads as the header. */
  predicate CsvShape(csv: seq<Row>, n: nat) {
    && (n == 0 ==> csv == [])
    && (n > 0 ==> |csv| == n + 1 && csv[0] == Header)
    && (forall i :: 1 <= i < |csv| ==> |csv[i]| == 7 && csv[i] != Header)
  }

  /** Exporting a non-empty batch keeps the shape. */
  lemma ExportKeepsShape(csv: seq<Row>, n: nat, flagged: seq<Flagged>, name: string)
    requires CsvShape(csv, n) && |flagged| > 0
    requires forall k :: 0 <= k < |flagged| ==> |flagged[k].reasons| > 0
    ensures CsvShape(Export(csv, flagged, name), n + |flagged|)
  {
    var out := Export(csv, flagged, name);
    var base := if |csv| == 0 then 1 else |csv|;
    assert |csv| == 0 ==> out[0] == Header;
    forall i | 1 <= i < |out| ensures |out[i]| == 7 && out[i] != Header {
      if i < |csv| {
        assert out[i] == csv[i];
      } else {
        var k := i - base;
        assert out[i] == ResourceRow(name, flagged[k]);
        RowIsNotHeader(name, flagged[k]);
      }
    }
  }

  /** The resource rows a run with an output writes, as a reference: for
      each selected subscription in selection order, one row per flagged
      resource, under that subscription's name. */
  function RunRows(subs: seq<Subscription>, selected: seq<string>, fetch: string -> seq<Resource>): (rows: seq<Row>)
    requires AllKnown(subs, selected)
    ensures |rows| == Tally(selected, fetch).portalCreated
    decreases |selected|
  {
    if |selected| == 0 then []
    else
      var n := |selected| - 1;
      var id := selected[n];
      RunRows(subs, selected[..n], fetch) + Rows(SubscriptionName(subs, id), PortalCreated(fetch(id)))
  }

  /** The file a run with an output leaves behind once `rows` are its
      resource rows: empty when there are none, otherwise one header
      followed by them. */
  function FileOf(rows: seq<Row>): seq<Row> {
    if rows == [] then [] else [Header] + rows
  }

  /** Adding rows to the file of earlier rows, with the header first when
      the file is still empty, gives the file of all the rows. */
  lemma FileOfAppend(before: seq<Row>, rows: seq<Row>)
    requires |rows| > 0
    ensures FileOf(before) + (if |FileOf(before)| == 0 then [Header] else []) + rows == FileOf(before + rows)
  {
    var after := before + rows;
    assert after != [] && FileOf(after) == [Header] + after;
    if before == [] {
      assert FileOf(before) == [] && after == rows;
    } else {
      var file := [Header] + before;
      assert FileOf(before) == file && |file| > 0;
      assert file + [] + rows == [Header] + after;
    }
  }

  /** Exporting a batch to the file of earlier rows gives the file of the
      earlier rows followed by the batch's rows. */
  lemma ExportExtendsFile(before: seq<Row>, flagged: seq<Flagged>, name: string)
    requires |flagged| > 0
    ensures Export(FileOf(before), flagged, name) == FileOf(before + Rows(name, flagged))
  {
    var file := FileOf(before);
    assert Export(file, flagged, name) == file + (if |file| == 0 then [Header] else []) + Rows(name, flagged);
    FileOfAppend(before, Rows(name, flagged));
  }

  /** Without an output nothing is written. With one, the file is empty
      while nothing is flagged, and otherwise one header followed by the
      rows of every subscription's flagged resources, in selection order. */
  lemma {:induction false} RunCsv(subs: seq<Subscription>, selected: seq<string>, fetch: string -> seq<Resource>, exporting: bool)
    requires AllKnown(subs, selected)
    ensures !exporting ==> Run(subs, selected, fetch, exporting).csv == []
    ensures exporting ==> Run(subs, selected, fetch, exporting).csv == FileOf(RunRows(subs, selected, fetch))
    decreases |selected|
  {
    if |selected| > 0 {
      var n := |selected| - 1;
      var id := selected[n];
      assert AllKnown(subs, selected[..n]);
      RunCsv(subs, selected[..n], fetch, exporting);
      var prev := Run(subs, selected[..n], fetch, exporting);
      var name := SubscriptionName(subs, id);
      var flagged := PortalCreated(fetch(id));
      var before := RunRows(subs, selected[..n], fetch);
      assert Run(subs, selected, fetch, exporting) == AnalyzeSubscription(prev, name, fetch(id), exporting);
      assert RunRows(subs, selected, fetch) == before + Rows(name, flagged);
      if exporting && |flagged| > 0 {
        ExportExtendsFile(before, flagged, name);
      } else if exporting {
        assert before + Rows(name, flagged) == before;
      }
    }
  }

  /** With an output, the file holds a single header and one seven-field
      row per flagged resource of the whole run. */
  lemma {:induction false} RunCsvShape(subs: seq<Subscription>, selected: seq<string>, fetch: string -> seq<Resource>, exporting: bool)
    requires AllKnown(subs, selected)
    ensures exporting ==> CsvShape(Run(subs, selected, fetch, exporting).csv,
                                   Run(subs, selected, fetch, exporting).totals.portalCreated)
    decreases |selected|
  {
    if |selected| > 0 {
      var n := |selected| - 1;
      var id := selected[n];
      assert AllKnown(subs, selected[..n]);
      RunCsvShape(subs, selected[..n], fetch, exporting);
      var prev := Run(subs, selected[..n], fetch, exporting);
      var flagged := PortalCreated(fetch(id));
      if exporting && |flagged| > 0 {
        FlaggedHaveReasons(fetch(id));
        ExportKeepsShape(prev.csv, prev.totals.portalCreated, flagged, SubscriptionName(subs, id));
      }
    }
  }

  /** The summary's percentage, kept exact: present only when something
      was analysed, and then the flagged share of the total times 100. */
  function Percentage(t: Totals): (p: Option<real>)
    ensures p.Some? <==> t.resources > 0
    ensures p.Some? ==> p.value * t.resources as real == 100.0 * t.portalCreated as real
    ensures p.Some? && t.portalCreated <= t.resources ==> 0.0 <= p.value <= 100.0
  {
    if t.resources > 0 then Some(t.portalCreated as real / t.resources as real * 100.0) else None
  }

  /** The ids the prompt settles on name listed subscriptions. */
  lemma SelectionKnown(subs: seq<Subscription>, inputs: seq<Option<int>>)
    requires FirstAccepted(subs, inputs).Some?
    ensures AllKnown(subs, FirstAccepted(subs, inputs).value)
  {
    FirstAcceptedIsFirst(subs, inputs);
    var k :| 0 <= k < |inputs| && FirstAccepted(subs, inputs) == Choose(subs, inputs[k])
             && forall j :: 0 <= j < k ==> Choose(subs, inputs[j]).None?;
    ChooseKnown(subs, inputs[k]);
  }

  /** The whole analysis: the prompt's answers pick the subscriptions, which
      are then analysed in order, giving the totals and the file of a run
      over exactly the chosen subscriptions. `None` when the answers run
      out before one is accepted. */
  function Analyze(subs: seq<Subscription>, inputs: seq<Option<int>>, fetch: string -> seq<Resource>, exporting: bool): (out: Option<RunState>)
    ensures out.None? <==> forall k :: 0 <= k < |inputs| ==> Choose(subs, inputs[k]).None?
    ensures out.Some? ==> out.value.totals.portalCreated <= out.value.totals.resources
    ensures out.Some? ==>
              && FirstAccepted(subs, inputs).Some?
              && AllKnown(subs, FirstAccepted(subs, inputs).value)
              && out.value.totals == Tally(FirstAccepted(subs, inputs).value, fetch)
              && (!exporting ==> out.value.csv == [])
              && (exporting ==> out.value.csv == FileOf(RunRows(subs, FirstAccepted(subs, inputs).value, fetch)))
  {
    FirstAcceptedIsFirst(subs, inputs);
    var sel := FirstAccepted(subs, inputs);
    if sel.None? then None
    else
      SelectionKnown(subs, inputs);
      RunTotals(subs, sel.value, fetch, exporting);
      RunCsv(subs, sel.value, fetch, exporting);
      Some(Run(subs, sel.value, fetch, exporting))
  }
}

=== FILE: classifier.dfy ===
/** The portal-creation heuristic `is_portal_created`: independent rules over
    one resource record, each adding its own fixed reason when it fires. */
module Classifier {
  import opened Wrappers
  import opened Text
  import opened Resources
  import opened TagDict

  /** The reasons the heuristic can give, in the order its rules run. */
  datatype Reason =
    | IdentityAzurerm
    | ManagedByAzurerm
    | CreatedByAzurerm
    | NoTags
    | NoAutomationTags
    | ProvisionedWithoutAutomationTags
  {
    /** The reason string the tool reports. Each is written as a few
        concatenated pieces rather than one literal: the report's lemmas
        inspect the pieces one at a time, which keeps those proofs cheap.
        The value is the source's string. */
    function Message(): string {
      match this
      case IdentityAzurerm => "Resource identity" + " contains 'azurerm'" + " identifier"
      case ManagedByAzurerm => "Resource managedBy" + " field contains" + " 'azurerm'"
      case CreatedByAzurerm => "Resource createdBy" + " field contains" + " 'azurerm'"
      case NoTags => "Resource has" + " no tags"
      case NoAutomationTags => "Resource lacks" + " automation-related" + " tags"
      case ProvisionedWithoutAutomationTags => "Resource was" + " provisioned without" + " automation tags"
    }

    /** Position of the rule that produces this reason. */
    function Rank(): nat {
      match this
      case IdentityAzurerm => 0
      case ManagedByAzurerm => 1
      case CreatedByAzurerm => 2
      case NoTags => 3
      case NoAutomationTags => 4
      case ProvisionedWithoutAutomationTags => 5
    }
  }

  /** The result of classifying one resource. */
  datatype Verdict = Verdict(portalCreated: bool, reasons: seq<Reason>)

  /** Reasons appear in rule order, each at most once. */
  predicate Ordered(rs: seq<Reason>) {
    forall i, j :: 0 <= i < j < |rs| ==> rs[i].Rank() < rs[j].Rank()
  }

  /** The fixed vocabulary of automation indicators. The source keeps them
      in a set and only asks whether any of them occurs, so their order here
      carries no meaning. */
  const AutomationIndicators: seq<string> := [
    "terraform", "arm-template", "bicep", "pulumi", "cloudformation",
    "managed-by", "created-by", "provisioner", "environment", "automation"
  ]

  const Marker: string := "azurerm"

  /** A metadata field whose lower-cased text contains the marker. Absent
      and empty fields never do. */
  predicate MentionsAzurerm(field: Option<string>) {
    field.Some? && Contains(ToLower(field.value), Marker)
  }

  /** Tags with key and value lower-cased, before they are gathered into
      a dictionary. */
  function LowerPairs(tags: seq<Tag>): (r: seq<Tag>)
    ensures |r| == |tags|
    decreases |tags|
  {
    if |tags| == 0 then [] else [(ToLower(tags[0].0), ToLower(tags[0].1))] + LowerPairs(tags[1..])
  }

  /** The lower-cased tag dictionary the rules inspect. */
  function LoweredTags(tags: seq<Tag>): seq<Tag> {
    BuildDict(LowerPairs(tags))
  }

  /** Some word of `inds` is a substring of `s`. */
  predicate MentionsAny(s: string, inds: seq<string>)
    decreases |inds|
  {
    |inds| > 0 && (Contains(s, inds[0]) || MentionsAny(s, inds[1..]))
  }

  /** `MentionsAny` is the existential it stands for. */
  lemma {:induction false} MentionsAnyIff(s: string, inds: seq<string>)
    ensures MentionsAny(s, inds) <==> exists k :: 0 <= k < |inds| && Contains(s, inds[k])
    decreases |inds|
  {
    if |inds| > 0 {
      MentionsAnyIff(s, inds[1..]);
      if exists k :: 0 <= k < |inds| && Contains(s, inds[k]) {
        var k :| 0 <= k < |inds| && Contains(s, inds[k]);
        if k > 0 {
          assert inds[1..][k - 1] == inds[k];
        }
      }
      if MentionsAny(s, inds[1..]) {
        var k :| 0 <= k < |inds[1..]| && Contains(s, inds[1..][k]);
        assert inds[k + 1] == inds[1..][k];
      }
    }
  }

  /** A string shorter than every word mentions none of them. */
  lemma {:induction false} ShortMentionsNone(s: string, inds: seq<string>)
    requires forall k :: 0 <= k < |inds| ==> |s| < |inds[k]|
    ensures !MentionsAny(s, inds)
    decreases |inds|
  {
    if |inds| > 0 {
      ShorterNotContains(s, inds[0]);
      ShortMentionsNone(s, inds[1..]);
    }
  }

  /** Some indicator is a substring of the key or of the value. */
  predicate MatchesIndicator(p: Tag) {
    MentionsAny(p.0, AutomationIndicators) || MentionsAny(p.1, AutomationIndicators)
  }

  /** Some entry of `d` matches an indicator. */
  predicate AnyMatch(d: seq<Tag>) {
    exists i :: 0 <= i < |d| && MatchesIndicator(d[i])
  }

  /** The indicator check of `is_portal_created`, over the lower-cased
      dictionary. */
  predicate HasAutomationTags(tags: seq<Tag>): (b: bool)
    ensures b ==> |tags| > 0
  {
    AnyMatch(LoweredTags(tags))
  }

  /** Tag `t` matches an indicator once lower-cased. */
  predicate TagMatches(t: Tag) {
    MatchesIndicator((ToLower(t.0), ToLower(t.1)))
  }

  /** Some tag, taken on its own, matches an indicator. */
  predicate SomeTagMatches(tags: seq<Tag>) {
    exists i :: 0 <= i < |tags| && TagMatches(tags[i])
  }

  /** What the rules observe about one resource. */
  datatype Facts = Facts(
    identityMarked: bool,
    managedByMarked: bool,
    createdByMarked: bool,
    untagged: bool,
    automationTagged: bool,
    succeeded: bool)

  function Observe(r: Resource): Facts {
    Facts(
      MentionsAzurerm(r.identity),
      MentionsAzurerm(r.managedBy),
      MentionsAzurerm(r.createdBy),
      |r.tags| == 0,
      HasAutomationTags(r.tags),
      ToLower(r.provisioningState) == "succeeded")
  }

  /** The rules, in the order `is_portal_created` evaluates them. */
  const Rules: seq<Reason> := [
    IdentityAzurerm, ManagedByAzurerm, CreatedByAzurerm,
    NoTags, NoAutomationTags, ProvisionedWithoutAutomationTags
  ]

  /** Whether the rule giving `reason` fires. The two tag rules are an
      if/else pair: the second is only tried when the resource has tags. */
  predicate Fires(f: Facts, reason: Reason) {
    match reason
    case IdentityAzurerm => f.identityMarked
    case ManagedByAzurerm => f.managedByMarked
    case CreatedByAzurerm => f.createdByMarked
    case NoTags => f.untagged
    case NoAutomationTags => !f.untagged && !f.automationTagged
    case ProvisionedWithoutAutomationTags => f.succeeded && !f.automationTagged
  }

  /** Runs `rules` in order, appending the reason of each rule that fires. */
  function Fired(f: Facts, rules: seq<Reason>): (rs: seq<Reason>)
    ensures forall x :: x in rs <==> x in rules && Fires(f, x)
    ensures |rs| <= |rules|
    ensures Ordered(rules) ==> Ordered(rs)
    decreases |rules|
  {
    if |rules| == 0 then []
    else
      var rest := Fired(f, rules[1..]);
      assert Ordered(rules) ==> forall i :: 0 <= i < |rest| ==> rules[0].Rank() < rest[i].Rank() by {
        if Ordered(rules) {
          forall i | 0 <= i < |rest| ensures rules[0].Rank() < rest[i].Rank() {
            assert rest[i] in rules[1..];
          }
        }
      }
      (if Fires(f, rules[0]) then [rules[0]] else []) + rest
  }

  /** A rule that does not fire leaves the reasons shorter than the rules. */
  lemma {:induction false} FiredShorter(f: Facts, rules: seq<Reason>, x: Reason)
    requires x in rules && !Fires(f, x)
    ensures |Fired(f, rules)| < |rules|
    decreases |rules|
  {
    if rules[0] != x {
      FiredShorter(f, rules[1..], x);
    }
  }

  /** Every reason has a rule, and the rules are listed in rank order. */
  lemma RulesInOrder()
    ensures Ordered(Rules)
    ensures forall x: Reason :: x in Rules
  {
    forall i, j | 0 <= i < j < |Rules| ensures Rules[i].Rank() < Rules[j].Rank() {
      assert Rules[i].Rank() == i && Rules[j].Rank() == j;
    }
    forall x: Reason ensures x in Rules {
      assert Rules[x.Rank()] == x;
    }
  }

  /** The two tag rules never both fire, so at most five reasons arise. */
  lemma AtMostFiveReasons(f: Facts)
    ensures |Fired(f, Rules)| <= 5
  {
    if f.untagged {
      FiredShorter(f, Rules, NoAutomationTags);
    } else {
      FiredShorter(f, Rules, NoTags);
    }
  }

  /** The reasons of the rules that fire on `f`, in rule order. */
  function Decide(f: Facts): (rs: seq<Reason>)
    ensures Ordered(rs) && |rs| <= 5
    ensures forall x :: x in rs <==> Fires(f, x)
  {
    RulesInOrder();
    AtMostFiveReasons(f);
    Fired(f, Rules)
  }

  /** `is_portal_created`: the flag, and the reasons of exactly the rules
      that fire, in rule order. */
  function Classify(r: Resource): (v: Verdict)
    ensures v.portalCreated <==> |v.reasons| > 0
    ensures Ordered(v.reasons)
    ensures |v.reasons| <= 5
    ensures forall x :: x in v.reasons <==> Fires(Observe(r), x)
  {
    var reasons := Decide(Observe(r));
    Verdict(|reasons| > 0, reasons)
  }

  /** Each marker check adds its own reason exactly when its field carries
      the marker, whatever the tags. */
  lemma MarkerReasons(r: Resource)
    ensures IdentityAzurerm in Classify(r).reasons <==> MentionsAzurerm(r.identity)
    ensures ManagedByAzurerm in Classify(r).reasons <==> MentionsAzurerm(r.managedBy)
    ensures CreatedByAzurerm in Classify(r).reasons <==> MentionsAzurerm(r.createdBy)
  {
  }

  /** The no-tags reason marks exactly the untagged resources; the
      lacks-automation-tags reason exactly the tagged ones whose lower-cased
      tag dictionary holds no indicator; the provisioning reason exactly the
      succeeded ones whose dictionary holds none. */
  lemma TagReasons(r: Resource)
    ensures NoTags in Classify(r).reasons <==> |r.tags| == 0
    ensures NoAutomationTags in Classify(r).reasons <==> |r.tags| > 0 && !HasAutomationTags(r.tags)
    ensures ProvisionedWithoutAutomationTags in Classify(r).reasons <==>
              ToLower(r.provisioningState) == "succeeded" && !HasAutomationTags(r.tags)
  {
  }

  /** Ranks tell reasons apart. */
  lemma RankInjective(x: Reason, y: Reason)
    requires x.Rank() == y.Rank()
    ensures x == y
  {
  }

  /** The head of an ordered list has the least rank of its members, and
      every later member has a greater one. */
  lemma OrderedHead(a: seq<Reason>, x: Reason)
    requires Ordered(a) && x in a
    ensures a[0].Rank() <= x.Rank()
    ensures x in a[1..] ==> a[0].Rank() < x.Rank()
  {
    var i :| 0 <= i < |a| && a[i] == x;
    if x in a[1..] {
      var k :| 0 <= k < |a[1..]| && a[1..][k] == x;
      assert a[k + 1] == x;
    }
  }

  /** Two ordered reason lists with the same members are equal, so the
      membership clauses of `Classify` determine its reasons completely. */
  lemma {:induction false} OrderedUnique(a: seq<Reason>, b: seq<Reason>)
    requires Ordered(a) && Ordered(b)
    requires forall x :: x in a <==> x in b
    ensures a == b
    decreases |a|
  {
    assert |b| > 0 ==> b[0] in b;
    if |a| > 0 {
      assert a[0] in a && a[0] in b;
      assert b[0] in a;
      OrderedHead(a, b[0]);
      OrderedHead(b, a[0]);
      RankInjective(a[0], b[0]);
      var a', b' := a[1..], b[1..];
      assert a == [a[0]] + a' && b == [b[0]] + b';
      forall x ensures x in a' <==> x in b' {
        if x in a' {
          OrderedHead(a, x);
        }
        if x in b' {
          OrderedHead(b, x);
        }
      }
      assert Ordered(a') && Ordered(b');
      OrderedUnique(a', b');
    }
  }

  /** A marker written in any letter case, e.g. "AzureRM", is detected. */
  lemma MixedCaseMarker(field: Option<string>, w: string)
    requires field.Some? && Contains(field.value, w) && ToLower(w) == Marker
    ensures MentionsAzurerm(field)
  {
    ContainsLower(field.value, w);
  }

  /** An untagged resource is always flagged with the no-tags reason and
      never with the lacks-automation-tags reason. */
  lemma UntaggedIsFlagged(r: Resource)
    requires |r.tags| == 0
    ensures Classify(r).portalCreated
    ensures NoTags in Classify(r).reasons && NoAutomationTags !in Classify(r).reasons
  {
  }

  /** When an indicator is present, neither tag rule fires and only the
      marker rules remain. */
  lemma DecideAutomationTagged(f: Facts)
    requires f.automationTagged && !f.untagged
    ensures NoAutomationTags !in Decide(f) && ProvisionedWithoutAutomationTags !in Decide(f)
    ensures |Decide(f)| > 0 <==> f.identityMarked || f.managedByMarked || f.createdByMarked
  {
    var rs := Decide(f);
    if |rs| > 0 {
      assert rs[0] in rs;
    }
    if f.identityMarked {
      assert IdentityAzurerm in rs;
    } else if f.managedByMarked {
      assert ManagedByAzurerm in rs;
    } else if f.createdByMarked {
      assert CreatedByAzurerm in rs;
    }
  }

  /** A resource whose lower-cased tag dictionary holds an indicator gets
      neither tag reason and is flagged only when one of its metadata fields
      carries the marker. Keys that collide after lower-casing merge first,
      so one matching tag does not always suffice: see
      `CaseCollidingKeysMerge`. */
  lemma IndicatorSuppressesTagRules(r: Resource)
    requires HasAutomationTags(r.tags)
    ensures NoAutomationTags !in Classify(r).reasons
    ensures ProvisionedWithoutAutomationTags !in Classify(r).reasons
    ensures Classify(r).portalCreated <==>
              MentionsAzurerm(r.identity) || MentionsAzurerm(r.managedBy) || MentionsAzurerm(r.createdBy)
  {
    var f := Observe(r);
    assert |r.tags| == 0 ==> LoweredTags(r.tags) == [];
    assert f.automationTagged && !f.untagged;
    DecideAutomationTagged(f);
  }

  /** Position `i` of the lower-cased pairs is tag `i` lower-cased. */
  lemma {:induction false} LowerPairsAt(tags: seq<Tag>, i: int)
    requires 0 <= i < |tags|
    ensures LowerPairs(tags)[i] == (ToLower(tags[i].0), ToLower(tags[i].1))
    decreases i
  {
    if i > 0 {
      LowerPairsAt(tags[1..], i - 1);
    }
  }

  /** Checking the lower-cased pairs is checking every tag lower-cased. */
  lemma {:induction false} AnyMatchLowerPairs(tags: seq<Tag>)
    ensures AnyMatch(LowerPairs(tags)) <==> SomeTagMatches(tags)
    decreases |tags|
  {
    var lp := LowerPairs(tags);
    if AnyMatch(lp) {
      var i :| 0 <= i < |lp| && MatchesIndicator(lp[i]);
      LowerPairsAt(tags, i);
      assert TagMatches(tags[i]);
    }
    if exists i :: 0 <= i < |tags| && TagMatches(tags[i]) {
      var i :| 0 <= i < |tags| && TagMatches(tags[i]);
      LowerPairsAt(tags, i);
      assert MatchesIndicator(lp[i]);
    }
  }

  /** When the lower-cased keys are distinct, the indicator check is the plain
      check over every tag. */
  lemma IndicatorCheckPerTag(tags: seq<Tag>)
    requires DistinctKeys(LowerPairs(tags))
    ensures HasAutomationTags(tags) <==> SomeTagMatches(tags)
  {
    LoweredDistinct(tags);
    AnyMatchLowerPairs(tags);
  }

  /** When no two keys collide after lower-casing, a single tag matching an
      indicator suppresses both tag reasons. */
  lemma MatchingTagSuppressesTagRules(r: Resource)
    requires DistinctKeys(LowerPairs(r.tags)) && SomeTagMatches(r.tags)
    ensures NoAutomationTags !in Classify(r).reasons
    ensures ProvisionedWithoutAutomationTags !in Classify(r).reasons
  {
    IndicatorCheckPerTag(r.tags);
    IndicatorSuppressesTagRules(r);
  }

  /** With distinct lower-cased keys the dictionary keeps every pair. */
  lemma LoweredDistinct(tags: seq<Tag>)
    requires DistinctKeys(LowerPairs(tags))
    ensures LoweredTags(tags) == LowerPairs(tags)
  {
    BuildDictDistinct(LowerPairs(tags));
  }

  /** A single tag is lower-cased on both sides. */
  lemma LoweredSingle(k: string, v: string)
    ensures LoweredTags([(k, v)]) == [(ToLower(k), ToLower(v))]
  {
    assert [(k, v)][1..] == [];
    assert LowerPairs([(k, v)]) == [(ToLower(k), ToLower(v))];
    BuildDictSingle(ToLower(k), ToLower(v));
  }

  /** A string without capitals is its own lower-case form. */
  lemma ToLowerNoUpper(s: string)
    requires forall i :: 0 <= i < |s| ==> !IsUpper(s[i])
    ensures ToLower(s) == s
  {
  }

  /** Lower-casing the colliding tags of `CaseCollidingKeysMerge`. */
  lemma CollidingLowerPairs()
    ensures LowerPairs([("Tool", "Bicep"), ("tool", "me")]) == [("tool", "bicep"), ("tool", "me")]
  {
    var tags := [("Tool", "Bicep"), ("tool", "me")];
    assert ToLower("Tool") == "tool";
    assert ToLower("Bicep") == "bicep";
    ToLowerNoUpper("tool");
    ToLowerNoUpper("me");
    LowerPairsAt(tags, 0);
    LowerPairsAt(tags, 1);
  }

  /** A later pair with the same key overwrites the earlier one. */
  lemma SameKeyOverwrites(k: string, v1: string, v2: string)
    ensures BuildDict([(k, v1), (k, v2)]) == [(k, v2)]
  {
    var p := [(k, v1), (k, v2)];
    assert p[..1] == [(k, v1)];
    BuildDictSingle(k, v1);
    var d1 := BuildDict(p[..1]);
    assert BuildDict(p) == Put(d1, k, v2);
    assert Put(d1, k, v2) == [(k, v2)] + d1[1..];
    assert d1[1..] == [];
  }

  /** Every indicator is at least five characters long. */
  lemma IndicatorsAtLeastFive()
    ensures forall k :: 0 <= k < |AutomationIndicators| ==> |AutomationIndicators[k]| >= 5
  {
  }

  /** Every indicator is at least five characters long, so "tool" and "me"
      mention none. */
  lemma ToolMeNoIndicator()
    ensures !MatchesIndicator(("tool", "me"))
  {
    IndicatorsAtLeastFive();
    ShortMentionsNone("tool", AutomationIndicators);
    ShortMentionsNone("me", AutomationIndicators);
  }

  /** Keys that differ only in letter case merge in the lower-cased dictionary,
      and the later value replaces the earlier one: here the "bicep"
      value is lost and the resource reads as lacking automation tags. */
  lemma CaseCollidingKeysMerge()
    ensures var tags := [("Tool", "Bicep"), ("tool", "me")];
            TagMatches(tags[0]) && !HasAutomationTags(tags)
  {
    var tags := [("Tool", "Bicep"), ("tool", "me")];
    CollidingLowerPairs();
    LowerPairsAt(tags, 0);
    assert Contains("bicep", "bicep");
    SameKeyOverwrites("tool", "bicep", "me");
    assert LoweredTags(tags) == [("tool", "me")];
    ToolMeNoIndicator();
  }

  /** The provisioning state the source writes as "Succeeded" lower-cases to
      the value the rule compares against. */
  lemma LowerSucceeded()
    ensures ToLower("Succeeded") == "succeeded"
  {
  }

  /** A single tag whose key is "terraform" in any letter case suppresses
      every tag rule, so without a marker the resource is not flagged. */
  lemma TerraformTagNotFlagged(r: Resource)
    requires |r.tags| == 1 && ToLower(r.tags[0].0) == "terraform"
    requires !MentionsAzurerm(r.identity) && !MentionsAzurerm(r.managedBy) && !MentionsAzurerm(r.createdBy)
    ensures !Classify(r).portalCreated
  {
    var k, v := r.tags[0].0, r.tags[0].1;
    assert r.tags == [(k, v)];
    LoweredSingle(k, v);
    var d := LoweredTags(r.tags);
    assert d[0] == ("terraform", ToLower(v));
    assert Contains("terraform", "terraform");
    assert MatchesIndicator(d[0]);
    IndicatorSuppressesTagRules(r);
  }

  /** An untagged succeeded resource gets exactly the no-tags and the
      provisioned-without-automation-tags reasons. */
  lemma UntaggedSucceeded(r: Resource)
    requires r.tags == [] && r.provisioningState == "Succeeded"
    requires !MentionsAzurerm(r.identity) && !MentionsAzurerm(r.managedBy) && !MentionsAzurerm(r.createdBy)
    ensures Classify(r) == Verdict(true, [NoTags, ProvisionedWithoutAutomationTags])
  {
    ObserveUntaggedSucceeded(r);
    DecideUntaggedSucceeded();
  }

  lemma ObserveUntaggedSucceeded(r: Resource)
    requires r.tags == [] && r.provisioningState == "Succeeded"
    requires !MentionsAzurerm(r.identity) && !MentionsAzurerm(r.managedBy) && !MentionsAzurerm(r.createdBy)
    ensures Observe(r) == Facts(false, false, false, true, false, true)
  {
    LowerSucceeded();
    assert LoweredTags(r.tags) == [];
  }

  lemma DecideUntaggedSucceeded()
    ensures Decide(Facts(false, false, false, true, false, true)) == [NoTags, ProvisionedWithoutAutomationTags]
  {
    var f := Facts(false, false, false, true, false, true);
    var expected := [NoTags, ProvisionedWithoutAutomationTags];
    forall x ensures x in Decide(f) <==> x in expected {
    }
    assert Ordered(expected);
    OrderedUnique(Decide(f), expected);
  }

  /** Equal up to letter case in every field the rules read. */
  predicate SameUpToCase(a: Resource, b: Resource) {
    && (a.identity.Some? <==> b.identity.Some?)
    && (a.identity.Some? ==> ToLower(a.identity.value) == ToLower(b.identity.value))
    && (a.managedBy.Some? <==> b.managedBy.Some?)
    && (a.managedBy.Some? ==> ToLower(a.managedBy.value) == ToLower(b.managedBy.value))
    && (a.createdBy.Some? <==> b.createdBy.Some?)
    && (a.createdBy.Some? ==> ToLower(a.createdBy.value) == ToLower(b.createdBy.value))
    && LowerPairs(a.tags) == LowerPairs(b.tags)
    && ToLower(a.provisioningState) == ToLower(b.provisioningState)
  }

  /** The classification ignores letter case. */
  lemma ClassifyIgnoresCase(a: Resource, b: Resource)
    requires SameUpToCase(a, b)
    ensures Classify(a) == Classify(b)
  {
    assert |a.tags| == |LowerPairs(a.tags)| == |b.tags|;
    assert LoweredTags(a.tags) == LoweredTags(b.tags);
    assert Observe(a) == Observe(b);
  }
}

=== FILE: dict.dfy ===
/** Python's insertion-ordered `dict` of tag keys to values, as a sequence of
    pairs. The classifier rebuilds the tags through a dict comprehension, so
    the model needs lookup, assignment and building from pairs. */
module TagDict {
  import opened Wrappers
  import opened Resources

  /** Keys are pairwise distinct, as in a JSON object or a dict. */
  predicate DistinctKeys(d: seq<Tag>) {
    forall i, j :: 0 <= i < j < |d| ==> d[i].0 != d[j].0
  }

  /** `d.get(k)`. */
  function Lookup(d: seq<Tag>, k: string): Option<string>
    decreases |d|
  {
    if |d| == 0 then None
    else if d[0].0 == k then Some(d[0].1)
    else Lookup(d[1..], k)
  }

  /** A key is missing exactly when no pair carries it. */
  lemma {:induction false} LookupAbsent(d: seq<Tag>, k: string)
    ensures Lookup(d, k).None? <==> forall i :: 0 <= i < |d| ==> d[i].0 != k
    decreases |d|
  {
    if |d| > 0 {
      LookupAbsent(d[1..], k);
      assert forall i :: 1 <= i < |d| ==> d[i] == d[1..][i - 1];
    }
  }

  /** `d[k] = v`: an existing key keeps its position and takes the new
      value, a new key goes last. */
  function Put(d: seq<Tag>, k: string, v: string): (r: seq<Tag>)
    ensures (k, v) in r
    ensures |d| <= |r| <= |d| + 1
    decreases |d|
  {
    if |d| == 0 then [(k, v)]
    else if d[0].0 == k then [(k, v)] + d[1..]
    else [d[0]] + Put(d[1..], k, v)
  }

  /** Assignment stores `v` under `k` and leaves every other key alone. */
  lemma {:induction false} PutLookup(d: seq<Tag>, k: string, v: string, k': string)
    ensures Lookup(Put(d, k, v), k') == if k' == k then Some(v) else Lookup(d, k')
    decreases |d|
  {
    if |d| > 0 && d[0].0 != k {
      PutLookup(d[1..], k, v, k');
    }
  }

  /** A new key is appended at the end. */
  lemma {:induction false} PutAppends(d: seq<Tag>, k: string, v: string)
    requires Lookup(d, k).None?
    ensures Put(d, k, v) == d + [(k, v)]
    decreases |d|
  {
    if |d| > 0 {
      PutAppends(d[1..], k, v);
      assert d == [d[0]] + d[1..];
    }
  }

  /** Assignment keeps the keys distinct. */
  lemma {:induction false} PutDistinct(d: seq<Tag>, k: string, v: string)
    requires DistinctKeys(d)
    ensures DistinctKeys(Put(d, k, v))
    decreases |d|
  {
    var r := Put(d, k, v);
    if |d| > 0 && d[0].0 == k {
      assert forall i :: 0 <= i < |r| ==> r[i].0 == d[i].0;
    } else if |d| > 0 {
      var rest := Put(d[1..], k, v);
      assert r == [d[0]] + rest;
      assert DistinctKeys(d[1..]);
      PutDistinct(d[1..], k, v);
      PutLookup(d[1..], k, v, d[0].0);
      LookupAbsent(d[1..], d[0].0);
      LookupAbsent(rest, d[0].0);
      forall i, j | 0 <= i < j < |r| ensures r[i].0 != r[j].0 {
        assert r[j] == rest[j - 1];
        if i > 0 {
          assert r[i] == rest[i - 1];
        }
      }
    }
  }

  /** Assignment stores `v` under `k`, leaves every other key alone, appends
      a new key, and keeps keys distinct. */
  lemma PutAssigns(d: seq<Tag>, k: string, v: string)
    ensures Lookup(Put(d, k, v), k) == Some(v)
    ensures forall k' :: k' != k ==> Lookup(Put(d, k, v), k') == Lookup(d, k')
    ensures Lookup(d, k).None? ==> Put(d, k, v) == d + [(k, v)]
    ensures DistinctKeys(d) ==> DistinctKeys(Put(d, k, v))
  {
    PutLookup(d, k, v, k);
    forall k' | k' != k ensures Lookup(Put(d, k, v), k') == Lookup(d, k') {
      PutLookup(d, k, v, k');
    }
    if Lookup(d, k).None? {
      PutAppends(d, k, v);
    }
    if DistinctKeys(d) {
      PutDistinct(d, k, v);
    }
  }

  /** No later pair in `pairs` has the key of pair `i`. */
  ghost predicate LastForKey(pairs: seq<Tag>, i: int)
    requires 0 <= i < |pairs|
  {
    forall j :: i < j < |pairs| ==> pairs[j].0 != pairs[i].0
  }

  /** `d` holds exactly the keys of `pairs`, each with its last value. */
  ghost predicate DictOf(pairs: seq<Tag>, d: seq<Tag>) {
    && (forall k :: Lookup(d, k).None? <==> forall i :: 0 <= i < |pairs| ==> pairs[i].0 != k)
    && (forall i :: 0 <= i < |pairs| && LastForKey(pairs, i) ==> Lookup(d, pairs[i].0) == Some(pairs[i].1))
  }

  /** Assigning the last pair extends the dictionary of the earlier pairs. */
  lemma PutExtendsDict(pairs: seq<Tag>, d0: seq<Tag>)
    requires |pairs| > 0 && DistinctKeys(d0) && DictOf(pairs[..|pairs| - 1], d0)
    ensures var last := pairs[|pairs| - 1];
            DistinctKeys(Put(d0, last.0, last.1)) && DictOf(pairs, Put(d0, last.0, last.1))
  {
    var n := |pairs| - 1;
    var front, k, v := pairs[..n], pairs[n].0, pairs[n].1;
    var d := Put(d0, k, v);
    PutAssigns(d0, k, v);
    forall x ensures Lookup(d, x).None? <==> forall i :: 0 <= i < |pairs| ==> pairs[i].0 != x {
      if x != k {
        assert forall i :: 0 <= i < |front| ==> pairs[i] == front[i];
      }
    }
    forall i | 0 <= i < |pairs| && LastForKey(pairs, i)
      ensures Lookup(d, pairs[i].0) == Some(pairs[i].1)
    {
      if i < n {
        assert pairs[i] == front[i];
        assert LastForKey(front, i) by {
          forall j | i < j < |front| ensures front[j].0 != front[i].0 {
            assert pairs[j] == front[j];
          }
        }
      }
    }
  }

  /** The dictionary a dict comprehension builds from `pairs`, in order. */
  function BuildDict(pairs: seq<Tag>): (d: seq<Tag>)
    ensures |d| <= |pairs|
    ensures |pairs| > 0 ==> pairs[|pairs| - 1] in d
    decreases |pairs|
  {
    if |pairs| == 0 then []
    else
      var last := pairs[|pairs| - 1];
      Put(BuildDict(pairs[..|pairs| - 1]), last.0, last.1)
  }

  /** A single pair builds a one-entry dictionary. */
  lemma BuildDictSingle(k: string, v: string)
    ensures BuildDict([(k, v)]) == [(k, v)]
  {
    var p := [(k, v)];
    assert p[..0] == [];
    assert BuildDict(p) == Put([], k, v);
  }

  /** The built dictionary has distinct keys, exactly the keys of `pairs`,
      and the last pair for a key decides its value. */
  lemma {:induction false} BuildDictIsDict(pairs: seq<Tag>)
    ensures DistinctKeys(BuildDict(pairs)) && DictOf(pairs, BuildDict(pairs))
    decreases |pairs|
  {
    if |pairs| > 0 {
      BuildDictIsDict(pairs[..|pairs| - 1]);
      PutExtendsDict(pairs, BuildDict(pairs[..|pairs| - 1]));
    }
  }

  /** Building from pairs whose keys are already distinct keeps every pair,
      in order. */
  lemma {:induction false} BuildDictDistinct(pairs: seq<Tag>)
    requires DistinctKeys(pairs)
    ensures BuildDict(pairs) == pairs
    decreases |pairs|
  {
    if |pairs| > 0 {
      var n := |pairs| - 1;
      var front, last := pairs[..n], pairs[n];
      assert DistinctKeys(front) by {
        forall i, j | 0 <= i < j < |front| ensures front[i].0 != front[j].0 {
          assert front[i] == pairs[i] && front[j] == pairs[j];
        }
      }
      BuildDictDistinct(front);
      assert Lookup(front, last.0).None? by {
        LookupAbsent(front, last.0);
        forall i | 0 <= i < |front| ensures front[i].0 != last.0 {
          assert front[i] == pairs[i];
        }
      }
      PutAssigns(front, last.0, last.1);
      assert front + [(last.0, last.1)] == pairs;
    }
  }
}

=== FILE: report.dfy ===
/** The CSV report (`export_to_csv`): a file is a sequence of rows, a row a
    sequence of fields. Quoting and the byte encoding the CSV writer adds are
    not modelled; a field is the text the writer receives. */
module Report {
  import opened Wrappers
  import opened Text
  import opened Resources
  import opened Classifier

  /** A flagged resource together with the reasons it was flagged for. */
  datatype Flagged = Flagged(resource: Resource, reasons: seq<Reason>)

  type Row = seq<string>

  /** The column names, written once at the top of an empty file. */
  const Header: Row := [
    "Subscription", "Resource Name", "Resource Type", "Resource Group",
    "Tags", "Created Time", "Portal Creation Indicators"
  ]

  const Separator: string := "; "

  const NoTagsText: string := "No tags"

  /** One tag as `key=value`. */
  function TagText(t: Tag): (s: string)
    ensures |s| == |t.0| + 1 + |t.1| && s[|t.0|] == '='
    ensures s[..|t.0|] == t.0 && s[|t.0| + 1..] == t.1
  {
    t.0 + "=" + t.1
  }

  function TagTexts(tags: seq<Tag>): (ts: seq<string>)
    ensures |ts| == |tags|
    ensures forall i :: 0 <= i < |tags| ==> ts[i] == TagText(tags[i])
    decreases |tags|
  {
    if |tags| == 0 then [] else [TagText(tags[0])] + TagTexts(tags[1..])
  }

  /** The tags column: the tags as `key=value` joined by "; ", or the
      placeholder when there are none. */
  function TagsField(tags: seq<Tag>): (field: string)
    ensures |tags| > 0 ==> StartsWith(field, TagText(tags[0]))
  {
    if |tags| == 0 then NoTagsText
    else
      JoinStartsWith(Separator, TagTexts(tags));
      Join(Separator, TagTexts(tags))
  }

  /** The placeholder appears exactly for untagged resources: a real tag
      always contributes an '=', which the placeholder lacks. */
  lemma TagsFieldPlaceholder(tags: seq<Tag>)
    ensures TagsField(tags) == NoTagsText <==> |tags| == 0
  {
    if |tags| > 0 {
      var ts := TagTexts(tags);
      JoinStartsWith(Separator, ts);
      var s := TagsField(tags);
      var k := |tags[0].0|;
      assert s[k] == ts[0][k] == '=';
      assert forall i :: 0 <= i < |NoTagsText| ==> NoTagsText[i] != '=';
    }
  }

  /** A tag text holds a ';' only if its key or value does. */
  lemma TagTextPlain(t: Tag)
    requires ';' !in t.0 && ';' !in t.1
    ensures ';' !in TagText(t)
  {
    assert TagText(t) == t.0 + "=" + t.1;
  }

  /** When no key or value holds a ';', the tags column splits back into
      one `key=value` text per tag, in order. */
  lemma TagsFieldSplits(tags: seq<Tag>)
    requires |tags| > 0
    requires forall i :: 0 <= i < |tags| ==> ';' !in tags[i].0 && ';' !in tags[i].1
    ensures Split(TagsField(tags), Separator) == TagTexts(tags)
  {
    var ts := TagTexts(tags);
    forall k | 0 <= k < |ts| ensures Separator[0] !in ts[k] {
      TagTextPlain(tags[k]);
    }
    SplitJoin(Separator, ts);
  }

  /** The reason strings, in order. */
  function Messages(rs: seq<Reason>): (ms: seq<string>)
    ensures |ms| == |rs|
    ensures forall i :: 0 <= i < |rs| ==> ms[i] == rs[i].Message()
    decreases |rs|
  {
    if |rs| == 0 then [] else [rs[0].Message()] + Messages(rs[1..])
  }

  /** The indicators column: the reason strings joined by "; ". */
  function ReasonsField(rs: seq<Reason>): (field: string)
    ensures |rs| > 0 ==> StartsWith(field, rs[0].Message())
  {
    var ms := Messages(rs);
    assert |rs| > 0 ==> StartsWith(Join(Separator, ms), ms[0]) by {
      if |rs| > 0 {
        JoinStartsWith(Separator, ms);
      }
    }
    Join(Separator, ms)
  }

  /** The tenth character of each reason string, which tells them apart. */
  function Initial(x: Reason): char {
    match x
    case IdentityAzurerm => 'i'
    case ManagedByAzurerm => 'm'
    case CreatedByAzurerm => 'c'
    case NoTags => 'h'
    case NoAutomationTags => 'l'
    case ProvisionedWithoutAutomationTags => 'w'
  }

  /** What the report needs of a reason string: it holds no ';', begins
      with 'R', and its tenth character identifies the reason. */
  predicate Plain(m: string, x: Reason) {
    ';' !in m && |m| > 9 && m[0] == 'R' && m[9] == Initial(x)
  }

  /** Every reason string is plain. Each is checked piece by piece. */
  lemma MessagePlain(x: Reason)
    ensures Plain(x.Message(), x)
  {
    match x
    case IdentityAzurerm => IdentityAzurermPlain();
    case ManagedByAzurerm => ManagedByAzurermPlain();
    case CreatedByAzurerm => CreatedByAzurermPlain();
    case NoTags => NoTagsPlain();
    case NoAutomationTags => NoAutomationTagsPlain();
    case ProvisionedWithoutAutomationTags => ProvisionedWithoutAutomationTagsPlain();
  }

  lemma IdentityAzurermPlain()
    ensures Plain(IdentityAzurerm.Message(), IdentityAzurerm)
  {
    assert ';' !in "Resource identity" && ';' !in " contains 'azurerm'" && ';' !in " identifier";
    assert "Resource identity"[0] == 'R' && "Resource identity"[9] == 'i';
  }

  lemma ManagedByAzurermPlain()
    ensures Plain(ManagedByAzurerm.Message(), ManagedByAzurerm)
  {
    assert ';' !in "Resource managedBy" && ';' !in " field contains" && ';' !in " 'azurerm'";
    assert "Resource managedBy"[0] == 'R' && "Resource managedBy"[9] == 'm';
  }

  lemma CreatedByAzurermPlain()
    ensures Plain(CreatedByAzurerm.Message(), CreatedByAzurerm)
  {
    assert ';' !in "Resource createdBy" && ';' !in " field contains" && ';' !in " 'azurerm'";
    assert "Resource createdBy"[0] == 'R' && "Resource createdBy"[9] == 'c';
  }

  lemma NoTagsPlain()
    ensures Plain(NoTags.Message(), NoTags)
  {
    assert ';' !in "Resource has" && ';' !in " no tags";
    assert "Resource has"[0] == 'R' && "Resource has"[9] == 'h';
  }

  lemma NoAutomationTagsPlain()
    ensures Plain(NoAutomationTags.Message(), NoAutomationTags)
  {
    assert ';' !in "Resource lacks" && ';' !in " automation-related" && ';' !in " tags";
    assert "Resource lacks"[0] == 'R' && "Resource lacks"[9] == 'l';
  }

  lemma ProvisionedWithoutAutomationTagsPlain()
    ensures Plain(ProvisionedWithoutAutomationTags.Message(), ProvisionedWithoutAutomationTags)
  {
    assert ';' !in "Resource was" && ';' !in " provisioned without" && ';' !in " automation tags";
    assert "Resource was"[0] == 'R' && "Resource was"[9] == 'w';
  }

  /** Different reasons have different strings. */
  lemma MessageDistinct(x: Reason, y: Reason)
    requires y.Message() == x.Message()
    ensures y == x
  {
    MessagePlain(x);
    MessagePlain(y);
  }

  /** The indicators column splits back into the reason strings, so the
      column loses nothing. */
  lemma ReasonsFieldSplits(rs: seq<Reason>)
    requires |rs| > 0
    ensures Split(ReasonsField(rs), Separator) == Messages(rs)
  {
    var ms := Messages(rs);
    forall k | 0 <= k < |ms| ensures Separator[0] !in ms[k] {
      MessagePlain(rs[k]);
    }
    SplitJoin(Separator, ms);
  }

  /** Two non-empty reason lists give the same column only when they are
      the same list. */
  lemma ReasonsFieldInjective(rs: seq<Reason>, qs: seq<Reason>)
    requires |rs| > 0 && |qs| > 0
    requires ReasonsField(rs) == ReasonsField(qs)
    ensures rs == qs
  {
    ReasonsFieldSplits(rs);
    ReasonsFieldSplits(qs);
    var ms, ns := Messages(rs), Messages(qs);
    assert ms == ns;
    forall i | 0 <= i < |rs| ensures rs[i] == qs[i] {
      assert qs[i].Message() == ns[i] == ms[i];
      MessageDistinct(rs[i], qs[i]);
    }
  }

  /** The created-time column. The listing query projects every field, so
      the key is always present: a missing time arrives as JSON null, which
      the CSV writer renders as an empty field. */
  function CreatedTimeField(t: Option<string>): string {
    t.GetOr("")
  }

  /** The row written for one flagged resource of the named subscription. */
  function ResourceRow(subscriptionName: string, f: Flagged): (row: Row)
    ensures |row| == |Header|
  {
    var r := f.resource;
    [subscriptionName, r.name, r.resourceType, r.resourceGroup,
     TagsField(r.tags), CreatedTimeField(r.createdTime), ReasonsField(f.reasons)]
  }

  /** A row for a resource with reasons can never be taken for the header:
      its last field begins with an 'R'. */
  lemma RowIsNotHeader(subscriptionName: string, f: Flagged)
    requires |f.reasons| > 0
    ensures ResourceRow(subscriptionName, f) != Header
  {
    var ms := Messages(f.reasons);
    JoinStartsWith(Separator, ms);
    MessagePlain(f.reasons[0]);
    var field := ReasonsField(f.reasons);
    assert field[0] == ms[0][0] == 'R';
    assert Header[6][0] == 'P';
  }

  /** The rows for all flagged resources, in order. */
  function Rows(subscriptionName: string, flagged: seq<Flagged>): (rows: seq<Row>)
    ensures |rows| == |flagged|
    ensures forall k :: 0 <= k < |flagged| ==> rows[k] == ResourceRow(subscriptionName, flagged[k])
    decreases |flagged|
  {
    if |flagged| == 0 then []
    else [ResourceRow(subscriptionName, flagged[0])] + Rows(subscriptionName, flagged[1..])
  }

  /** `export_to_csv`: append to `file` the header when the file is empty,
      then one row per flagged resource. */
  function Export(file: seq<Row>, flagged: seq<Flagged>, subscriptionName: string): (out: seq<Row>)
    ensures |out| == |file| + (if |file| == 0 then 1 else 0) + |flagged|
    ensures out[..|file|] == file
    ensures |file| == 0 ==> out[0] == Header
    ensures forall k :: 0 <= k < |flagged| ==>
              var row := out[|out| - |flagged| + k];
              var r := flagged[k].resource;
              |row| == 7 && row[0] == subscriptionName && row[1] == r.name
              && row[2] == r.resourceType && row[3] == r.resourceGroup
              && row[4] == TagsField(r.tags) && row[5] == r.createdTime.GetOr("")
              && row[6] == ReasonsField(flagged[k].reasons)
  {
    file + (if |file| == 0 then [Header] else []) + Rows(subscriptionName, flagged)
  }

  /** A non-empty file receives no second header: everything appended is a
      resource row. */
  lemma ExportNoSecondHeader(file: seq<Row>, flagged: seq<Flagged>, subscriptionName: string)
    requires |file| > 0
    requires forall k :: 0 <= k < |flagged| ==> |flagged[k].reasons| > 0
    ensures forall i :: |file| <= i < |Export(file, flagged, subscriptionName)| ==>
              Export(file, flagged, subscriptionName)[i] != Header
  {
    var out := Export(file, flagged, subscriptionName);
    forall i | |file| <= i < |out| ensures out[i] != Header {
      var k := i - |file|;
      assert out[i] == ResourceRow(subscriptionName, flagged[k]);
      RowIsNotHeader(subscriptionName, flagged[k]);
    }
  }
}

=== FILE: resources.dfy ===
/** The records the tool reads from the cloud CLI: subscriptions and the
    projected resource records of `fetch_resource_details`. */
module Resources {
  import opened Wrappers

  /** One tag as a (key, value) pair; a resource's tags keep the order in
      which the JSON object listed them. */
  type Tag = (string, string)

  /** A resource record as projected by the listing query. `identity` holds
      the textual rendering of the identity object, `None` when it is
      absent or not an object; `createdBy` is the identity's principal id. */
  datatype Resource = Resource(
    id: string,
    name: string,
    resourceType: string,
    resourceGroup: string,
    tags: seq<Tag>,
    createdTime: Option<string>,
    createdBy: Option<string>,
    managedBy: Option<string>,
    identity: Option<string>,
    provisioningState: string)

  datatype Subscription = Subscription(id: string, name: string)
}

=== FILE: selection.dfy ===
/** Choosing which subscriptions to analyse (`select_subscription`) and
    finding a subscription's display name (the `next(...)` lookup in `main`).
    The prompt's answers arrive as a finite script of parsed integers: `None`
    stands for text that `int()` rejects. */
module Selection {
  import opened Wrappers
  import opened Resources

  /** The ids of `subs`, in listing order. */
  function Ids(subs: seq<Subscription>): (ids: seq<string>)
    ensures |ids| == |subs|
    ensures forall i :: 0 <= i < |subs| ==> ids[i] == subs[i].id
    decreases |subs|
  {
    if |subs| == 0 then [] else [subs[0].id] + Ids(subs[1..])
  }

  /** Some subscription carries `id`. */
  predicate Known(subs: seq<Subscription>, id: string) {
    exists i :: 0 <= i < |subs| && subs[i].id == id
  }

  /** One answer to the menu. Entries are numbered from 1; the number after
      the last one means every subscription; any other answer is refused
      and the prompt asks again. */
  function Choose(subs: seq<Subscription>, choice: Option<int>): (sel: Option<seq<string>>)
    ensures sel.Some? <==> choice.Some? && 1 <= choice.value <= |subs| + 1
    ensures sel.Some? && choice.value == |subs| + 1 ==> sel.value == Ids(subs)
    ensures sel.Some? && choice.value <= |subs| ==> sel.value == [subs[choice.value - 1].id]
  {
    match choice
    case None => None
    case Some(n) =>
      if n == |subs| + 1 then Some(Ids(subs))
      else if 1 <= n <= |subs| then Some([subs[n - 1].id])
      else None
  }

  /** Whatever the menu accepts names only listed subscriptions, and one
      subscription unless "all" was chosen. */
  lemma ChooseKnown(subs: seq<Subscription>, choice: Option<int>)
    requires Choose(subs, choice).Some?
    ensures forall id :: id in Choose(subs, choice).value ==> Known(subs, id)
    ensures choice.value <= |subs| ==> |Choose(subs, choice).value| == 1
  {
    var sel := Choose(subs, choice).value;
    forall id | id in sel ensures Known(subs, id) {
      var k :| 0 <= k < |sel| && sel[k] == id;
      if choice.value == |subs| + 1 {
        assert subs[k].id == id;
      } else {
        assert subs[choice.value - 1].id == id;
      }
    }
  }

  /** Every listed subscription can be chosen on its own, by its position
      counted from 1. */
  lemma EachSubscriptionSelectable(subs: seq<Subscription>, i: int)
    requires 0 <= i < |subs|
    ensures Choose(subs, Some(i + 1)) == Some([subs[i].id])
  {
  }

  /** With no subscriptions the menu still offers "all" as entry 1, and
      choosing it selects nothing. */
  lemma EmptyListSelectsNothing()
    ensures Choose([], Some(1)) == Some([])
    ensures forall n :: n != 1 ==> Choose([], Some(n)).None?
  {
  }

  /** The reference meaning of the retry loop: the selection made by the
      first accepted answer, or `None` if every answer is refused. */
  function FirstAccepted(subs: seq<Subscription>, inputs: seq<Option<int>>): (sel: Option<seq<string>>)
    decreases |inputs|
  {
    if |inputs| == 0 then None
    else if Choose(subs, inputs[0]).Some? then Choose(subs, inputs[0])
    else FirstAccepted(subs, inputs[1..])
  }

  /** `FirstAccepted` finds an accepted answer exactly when one exists, and
      it is the earliest. */
  lemma {:induction false} FirstAcceptedIsFirst(subs: seq<Subscription>, inputs: seq<Option<int>>)
    ensures FirstAccepted(subs, inputs).None? <==>
              forall k :: 0 <= k < |inputs| ==> Choose(subs, inputs[k]).None?
    ensures FirstAccepted(subs, inputs).Some? ==>
              exists k :: 0 <= k < |inputs| && FirstAccepted(subs, inputs) == Choose(subs, inputs[k])
                && forall j :: 0 <= j < k ==> Choose(subs, inputs[j]).None?
    decreases |inputs|
  {
    if |inputs| > 0 {
      FirstAcceptedIsFirst(subs, inputs[1..]);
      assert forall k :: 1 <= k < |inputs| ==> inputs[k] == inputs[1..][k - 1];
      if Choose(subs, inputs[0]).None? && FirstAccepted(subs, inputs).Some? {
        var k :| 0 <= k < |inputs[1..]| && FirstAccepted(subs, inputs[1..]) == Choose(subs, inputs[1..][k])
                 && forall j :: 0 <= j < k ==> Choose(subs, inputs[1..][j]).None?;
        assert FirstAccepted(subs, inputs) == Choose(subs, inputs[k + 1]);
        forall j | 0 <= j < k + 1 ensures Choose(subs, inputs[j]).None? {
          if j > 0 {
            assert inputs[j] == inputs[1..][j - 1];
          }
        }
      }
    }
  }

  /** The prompt loop: reads answers until one is accepted. Returns the
      selection and how many answers it consumed; when the script runs out
      first, the selection is `None`. */
  method Prompt(subs: seq<Subscription>, inputs: seq<Option<int>>) returns (sel: Option<seq<string>>, used: nat)
    ensures sel == FirstAccepted(subs, inputs)
    ensures used <= |inputs|
    ensures sel.Some? ==> used > 0 && sel == Choose(subs, inputs[used - 1])
    ensures forall k :: 0 <= k < used - 1 ==> Choose(subs, inputs[k]).None?
    ensures sel.None? ==> used == |inputs|
  {
    used := 0;
    sel := None;
    while used < |inputs|
      invariant used <= |inputs|
      invariant forall k :: 0 <= k < used ==> Choose(subs, inputs[k]).None?
      invariant FirstAccepted(subs, inputs) == FirstAccepted(subs, inputs[used..])
      decreases |inputs| - used
    {
      var answer := Choose(subs, inputs[used]);
      assert inputs[used..][1..] == inputs[used + 1..];
      used := used + 1;
      if answer.Some? {
        sel := answer;
        return;
      }
    }
  }

  /** The display name of the first subscription carrying `id`. The source
      looks it up with `next(...)`, which fails when no subscription has the
      id; the selected ids always come from the list, so the caller must
      supply a known id. */
  function SubscriptionName(subs: seq<Subscription>, id: string): (name: string)
    requires Known(subs, id)
    ensures exists i :: 0 <= i < |subs| && subs[i].id == id && subs[i].name == name
    decreases |subs|
  {
    if subs[0].id == id then subs[0].name
    else
      assert Known(subs[1..], id) by {
        var i :| 0 <= i < |subs| && subs[i].id == id;
        assert subs[1..][i - 1] == subs[i];
      }
      SubscriptionName(subs[1..], id)
  }

  /** The name returned belongs to the first subscription with that id. */
  lemma {:induction false} SubscriptionNameFirst(subs: seq<Subscription>, id: string)
    requires Known(subs, id)
    ensures exists i :: 0 <= i < |subs| && subs[i].id == id && SubscriptionName(subs, id) == subs[i].name
              && forall j :: 0 <= j < i ==> subs[j].id != id
    decreases |subs|
  {
    if subs[0].id != id {
      var i0 :| 0 <= i0 < |subs| && subs[i0].id == id;
      assert subs[1..][i0 - 1] == subs[i0];
      SubscriptionNameFirst(subs[1..], id);
      var i :| 0 <= i < |subs[1..]| && subs[1..][i].id == id && SubscriptionName(subs[1..], id) == subs[1..][i].name
               && forall j :: 0 <= j < i ==> subs[1..][j].id != id;
      assert subs[i + 1] == subs[1..][i];
      forall j | 0 <= j < i + 1 ensures subs[j].id != id {
        if j > 0 {
          assert subs[j] == subs[1..][j - 1];
        }
      }
    }
  }
}

=== FILE: text.dfy ===
/** String helpers standing in for Python's `str.lower`, the substring
    operator `in`, and `str.join`; plus a `Split` that reads a joined field
    back, so that joining can be shown to lose nothing. */
module Text {
  import opened Wrappers

  /** ASCII lower-casing of one character; every other character is kept. */
  function LowerChar(c: char): char {
    if 'A' <= c <= 'Z' then (c as int - 'A' as int + 'a' as int) as char else c
  }

  predicate IsUpper(c: char) {
    'A' <= c <= 'Z'
  }

  /** `s.lower()`, restricted to ASCII letters. */
  function ToLower(s: string): (r: string)
    ensures |r| == |s|
    ensures forall i :: 0 <= i < |s| ==> r[i] == LowerChar(s[i])
    ensures forall i :: 0 <= i < |r| ==> !IsUpper(r[i])
  {
    if |s| == 0 then [] else [LowerChar(s[0])] + ToLower(s[1..])
  }

  /** Lower-casing commutes with taking a slice. */
  lemma ToLowerSlice(s: string, i: int, j: int)
    requires 0 <= i <= j <= |s|
    ensures ToLower(s)[i..j] == ToLower(s[i..j])
  {
  }

  predicate StartsWith(s: string, p: string) {
    |p| <= |s| && s[..|p|] == p
  }

  /** `w in s` for strings: `w` is a prefix of some suffix of `s`. */
  predicate Contains(s: string, w: string): (b: bool)
    ensures b ==> |w| <= |s|
    decreases |s|
  {
    StartsWith(s, w) || (|s| > 0 && Contains(s[1..], w))
  }

  /** `w` occurs in `s` starting at index `i`. */
  ghost predicate OccursAt(s: string, w: string, i: int) {
    0 <= i && i + |w| <= |s| && s[i..i + |w|] == w
  }

  /** An occurrence at a position is found by `Contains`. */
  lemma {:induction false} OccursContains(s: string, w: string, i: int)
    requires OccursAt(s, w, i)
    ensures Contains(s, w)
    decreases i
  {
    if i == 0 {
      assert s[..|w|] == s[0..|w|];
    } else {
      assert s[1..][i - 1..i - 1 + |w|] == s[i..i + |w|];
      OccursContains(s[1..], w, i - 1);
    }
  }

  /** `Contains` agrees with the positional definition of a substring. */
  lemma {:induction false} ContainsIffOccurs(s: string, w: string)
    ensures Contains(s, w) <==> exists i :: OccursAt(s, w, i)
    decreases |s|
  {
    if StartsWith(s, w) {
      assert OccursAt(s, w, 0);
    } else if |s| > 0 && Contains(s[1..], w) {
      ContainsIffOccurs(s[1..], w);
      var i :| OccursAt(s[1..], w, i);
      assert s[i + 1..i + 1 + |w|] == s[1..][i..i + |w|];
      assert OccursAt(s, w, i + 1);
    }
    forall i | OccursAt(s, w, i) ensures Contains(s, w) {
      OccursContains(s, w, i);
    }
  }

  /** A string never contains a longer one. */
  lemma {:induction false} ShorterNotContains(s: string, w: string)
    requires |s| < |w|
    ensures !Contains(s, w)
    decreases |s|
  {
    if |s| > 0 {
      ShorterNotContains(s[1..], w);
    }
  }

  /** Substring occurrence survives lower-casing both sides: this is why a
      mixed-case marker such as "AzureRM" is found by a lower-case search. */
  lemma ContainsLower(s: string, w: string)
    requires Contains(s, w)
    ensures Contains(ToLower(s), ToLower(w))
  {
    ContainsIffOccurs(s, w);
    var i :| OccursAt(s, w, i);
    LowerOccurs(s, w, i);
    OccursContains(ToLower(s), ToLower(w), i);
  }

  /** An occurrence stays in place under lower-casing. */
  lemma LowerOccurs(s: string, w: string, i: int)
    requires OccursAt(s, w, i)
    ensures OccursAt(ToLower(s), ToLower(w), i)
  {
    ToLowerSlice(s, i, i + |w|);
  }

  /** `sep.join(xs)`. */
  function Join(sep: string, xs: seq<string>): string
    decreases |xs|
  {
    if |xs| == 0 then ""
    else if |xs| == 1 then xs[0]
    else xs[0] + sep + Join(sep, xs[1..])
  }

  /** A non-empty join begins with its first part. */
  lemma JoinStartsWith(sep: string, xs: seq<string>)
    requires |xs| > 0
    ensures StartsWith(Join(sep, xs), xs[0])
  {
    if |xs| > 1 {
      assert Join(sep, xs) == xs[0] + (sep + Join(sep, xs[1..]));
    }
  }

  /** The first index at or after `from` where `sep` occurs in `s`. */
  function FindFrom(s: string, sep: string, from: nat): (r: Option<nat>)
    requires |sep| > 0
    ensures r.Some? ==> from <= r.value && OccursAt(s, sep, r.value)
    ensures r.Some? ==> forall j :: from <= j < r.value ==> !OccursAt(s, sep, j)
    ensures r.None? ==> forall j :: from <= j ==> !OccursAt(s, sep, j)
    decreases |s| - from
  {
    if from + |sep| > |s| then None
    else if s[from..from + |sep|] == sep then Some(from)
    else FindFrom(s, sep, from + 1)
  }

  /** `s.split(sep)` for a non-empty separator. */
  function Split(s: string, sep: string): (parts: seq<string>)
    requires |sep| > 0
    ensures |parts| > 0
    decreases |s|
  {
    match FindFrom(s, sep, 0)
    case None => [s]
    case Some(i) => [s[..i]] + Split(s[i + |sep|..], sep)
  }

  /** No search finds `sep` past a prefix free of its first character. */
  lemma {:induction false} FindFromFree(s: string, sep: string, from: nat)
    requires |sep| > 0
    requires forall j :: from <= j < |s| ==> s[j] != sep[0]
    ensures FindFrom(s, sep, from) == None
    decreases |s| - from
  {
    if from + |sep| <= |s| {
      assert s[from..from + |sep|][0] == s[from];
      FindFromFree(s, sep, from + 1);
    }
  }

  /** The search stops at the first place where the separator begins. */
  lemma {:induction false} FindFromFirst(s: string, sep: string, from: nat, k: nat)
    requires |sep| > 0 && from <= k && OccursAt(s, sep, k)
    requires forall j :: from <= j < k ==> s[j] != sep[0]
    ensures FindFrom(s, sep, from) == Some(k)
    decreases k - from
  {
    if from < k {
      assert s[from..from + |sep|][0] == s[from];
      FindFromFirst(s, sep, from + 1, k);
    }
  }

  /** A string free of the separator's first character splits into itself. */
  lemma SplitFree(s: string, sep: string)
    requires |sep| > 0 && sep[0] !in s
    ensures Split(s, sep) == [s]
  {
    FindFromFree(s, sep, 0);
  }

  /** Splitting a join gives back its parts, provided no part holds the
      separator's first character. */
  lemma {:induction false} SplitJoin(sep: string, xs: seq<string>)
    requires |sep| > 0 && |xs| > 0
    requires forall k :: 0 <= k < |xs| ==> sep[0] !in xs[k]
    ensures Split(Join(sep, xs), sep) == xs
    decreases |xs|
  {
    if |xs| == 1 {
      SplitFree(xs[0], sep);
    } else {
      var x, rest := xs[0], Join(sep, xs[1..]);
      var s := Join(sep, xs);
      assert s == x + sep + rest;
      assert s[|x|..|x| + |sep|] == sep;
      assert OccursAt(s, sep, |x|);
      FindFromFirst(s, sep, 0, |x|);
      assert s[..|x|] == x;
      assert s[|x| + |sep|..] == rest;
      SplitJoin(sep, xs[1..]);
      assert xs == [x] + xs[1..];
    }
  }
}

=== FILE: wrappers.dfy ===
/** The optional-value wrapper used throughout the model: a missing JSON field,
    a failed integer parse and a retry signal are all `None`. */
module Wrappers {

  datatype Option<+T> = None | Some(value: T) {

    /** Returns the value in Some, or the given default for None. */
    function GetOr(default: T): T {
      match this
      case Some(v) => v
      case None => default
    }
  }
}
